=== FILE: README.md ===
# CoDWoE submission checker and dataset statistics, in Dafny

This project models two pieces of the CoDWoE shared-task code:

- `codwoe/code/check_output.py`: the submission-format checker. The model
  starts from a file that has already been loaded into a list of JSON objects.
  It covers every check `main` makes after that point, in the order the code
  makes them, and the `CheckSummary` it returns.
- `codwoe/code/visualize_stats.py`: `calculate_stats`, the statistics
  computed over a dataset file. It covers the entry count, the set of gloss
  words, the per-entry gloss lengths and the embedding names.

An item is a `Records.Record` with three parts:

- the value of its `id` key, if present;
- the value of its `gloss` key, if present;
- the set of its other key names.

After loading, `main` stops with an exception or returns a summary. In the
model a stop is `Failure(e)` with a `CheckOutput.CheckError`, which has twelve
constructors:

- ten for the ten `raise ValueError` statements at `check_output.py:48-113`;
- `MalformedId` for the `IndexError` that `i[-2]` raises at line 61 on an id
  with no `.`;
- `BadSerial` for the `ValueError` that `int()` raises at line 79 on a serial
  that is not a number.

## Modules

- `Wrappers` (`wrappers.dfy`): `Option` and `Result`.
- `Order` (`order.dfy`) covers ordering and sorting:
  - Python string comparison, proved to be a strict total order;
  - `sorted` of a finite set, as the unique strictly increasing listing of the set;
  - `list(range(lo, hi))`.
- `Text` (`text.dfy`) covers the string operations:
  - `str.split(".")`, with its inverse `join`;
  - `int()` on decimal digits, with its inverse `str()`;
  - whitespace `str.split()`, with its inverse `" ".join`.
- `Records` (`records.dfy`): the item type, and the nine key names that never name a vector.
- `CheckOutput` (`check_output.dfy`) holds the checker, in two stages:
  - `Header`, the id checks;
  - `TrackRules`, the revdict and defmod checks.

  It also holds a description of an accepted submission written without the
  checker (`Accepted`). The central theorem `CheckAccepts` states that the
  checker succeeds with a summary exactly when that description holds. Lemmas
  fix which error each kind of bad submission receives.
- `VisualizeStats` (`visualize_stats.dfy`): `calculate_stats` as a loop over the entries.
- `Scenarios` (`scenarios.dfy`) holds three kinds of result:
  - two families of well-formed submissions that always pass;
  - small worked submissions, one per outcome;
  - how the checker's vector names relate to the statistics' embedding names.

## Model

| member | source | states |
|---|---|---|
| CheckOutput.Check | codwoe/code/check_output.py:44-136 | A successful check reports the given filename, a known track and a known language, and carries vector names exactly when the track is revdict. |
| CheckOutput.CheckAccepts | codwoe/code/check_output.py:44-136 | The check succeeds with summary `s` exactly when all of the following hold: every item has an id; the ids are non-empty and all decode to `s.lang` and `s.track`; both are from the closed sets; the serials are a permutation of 1..n; and the track rules hold, with `s.vecArchs` the sorted vector names for revdict and `None` for defmod. |
| CheckOutput.SuccessIsAccepted | codwoe/code/check_output.py:44-136 | Everything the checker promises on success holds of the items and the summary. |
| CheckOutput.AcceptedSucceeds | codwoe/code/check_output.py:44-136 | A submission meeting every requirement is accepted with exactly that summary. |
| CheckOutput.Header | codwoe/code/check_output.py:45-84 | When the id checks pass, there is at least one item, and the decoded track and language are in the closed sets. |
| CheckOutput.DecodeIds | codwoe/code/check_output.py:52-84 | When the id decoding passes, the ids are non-empty and name a known track and language; it never reports a missing id. |
| CheckOutput.DecodeAccepts | codwoe/code/check_output.py:54-84 | The id checks pass with track and language `d` exactly when every id decodes to `d`, `d` is known, and the serials are complete. |
| CheckOutput.DecodeSuccessUniform | codwoe/code/check_output.py:54-84 | When the id checks pass, every id has the reported language and the reported track. |
| CheckOutput.MissingIdFirst | codwoe/code/check_output.py:45-50 | The missing-id error is reported exactly when some item lacks an id, whatever else the items contain. |
| CheckOutput.EmptyRejected | codwoe/code/check_output.py:55-60 | An empty submission fails at the language step: its language set is empty. |
| CheckOutput.TwoLanguagesRejected | codwoe/code/check_output.py:55-60 | Two ids with different segment 0 give the language error. |
| CheckOutput.ShortIdRejected | codwoe/code/check_output.py:55-61 | An id with no `.` passes the language test and then fails the track step, as Python's `i[-2]` raises. |
| CheckOutput.TwoTracksRejected | codwoe/code/check_output.py:61-66 | With one language, two ids with different segment -2 give the track error. |
| CheckOutput.UnknownTrackFirst | codwoe/code/check_output.py:67-72 | Uniform ids with an unknown track fail with that track, whatever the language. The track test therefore comes before the language test. |
| CheckOutput.UnknownLanguageRejected | codwoe/code/check_output.py:73-78 | With a known track, an unknown language fails with that language. |
| CheckOutput.SerialStep | codwoe/code/check_output.py:79-85 | Once track and language are accepted, the next outcome is decided in order: an unparsable serial fails; then anything but a permutation of 1..n fails; otherwise the track rules decide. |
| CheckOutput.SortedRangeMeansPermutation | codwoe/code/check_output.py:79-81 | `sorted(set(serials)) == list(range(1, n + 1))` holds exactly when every serial is in 1..n and none repeats. When it holds, every number in 1..n occurs. |
| CheckOutput.SerialTestMeansPermutation | codwoe/code/check_output.py:79-84 | The serial test passes exactly when every serial parses and the serials are a permutation of 1..n. |
| CheckOutput.DuplicateSerialRejected | codwoe/code/check_output.py:79-84 | Two items with the same serial give the completeness error. |
| CheckOutput.SerialGapRejected | codwoe/code/check_output.py:79-84 | A number in 1..n that no item carries gives the completeness error. |
| CheckOutput.Languages | codwoe/code/check_output.py:55-57 | The language set has exactly one element when the ids are non-empty and all share the first id's language. An empty submission therefore fails the test. |
| CheckOutput.Tracks | codwoe/code/check_output.py:61-63 | The track set has exactly one element when the ids are non-empty and all share the first id's track. |
| CheckOutput.Serials | codwoe/code/check_output.py:79 | The serials of all ids, in order. The result is defined exactly when every last segment parses, and then the i-th value is the serial of the i-th id. |
| CheckOutput.VectorArchitectures | codwoe/code/check_output.py:87-97 | The vector names come from the first item only. They are never `id` or `gloss`. They are always among the vector keys of all items (`AllVectorKeys`, the key union that `embedding_types` is built from), and equal to them exactly when no item has a vector key the first lacks. |
| CheckOutput.FirstVectorKeys | codwoe/code/check_output.py:87-97 | The first item's keys outside the nine names are among all items' such keys, and equal them exactly when no item adds one. |
| CheckOutput.MakeIdDecodes | codwoe/code/check_output.py:54-61 | An id built as `<lang>.<track>.<serial>` decodes back to its language, track and serial. |
| CheckOutput.TrackRules | codwoe/code/check_output.py:85-136 | A successful track step reports the given filename, track and language. Its failures are only the four track-specific errors. |
| CheckOutput.RevdictRules | codwoe/code/check_output.py:85-111 | For revdict, in the code's order: no vector name gives its own error; a vector missing from some item gives the missing-vector error; otherwise an unknown vector name gives the unknown-architecture error. Success holds exactly when the first item's vector names are non-empty, known and carried by every item. |
| CheckOutput.RevdictOutcome | codwoe/code/check_output.py:85-111 | The revdict step passes exactly when the vector names are valid, and then reports them sorted. |
| CheckOutput.RevdictRulesAccept | codwoe/code/check_output.py:85-127 | The revdict step succeeds with `s` exactly when the vector names are valid and `s.vecArchs` lists them in increasing order, each once. |
| CheckOutput.DefmodRule | codwoe/code/check_output.py:112-115 | For defmod, success holds exactly when every item has a gloss, and then no vector names are reported. |
| CheckOutput.DefmodRulesAccept | codwoe/code/check_output.py:112-129 | The defmod step succeeds with `s` exactly when every item has a gloss and `s.vecArchs` is `None`. |
| CheckOutput.TrackRulesAccept | codwoe/code/check_output.py:85-136 | For either known track, the track step succeeds with `s` exactly when that track's rules hold. |
| CheckOutput.HeaderDependsOnIdsOnly | codwoe/code/check_output.py:45-84 | The id checks give the same outcome on any two item lists with the same ids. |
| CheckOutput.ExtraKeysOnLaterItemsAccepted | codwoe/code/check_output.py:87-107 | Vector consistency is containment, not equality. Adding keys to any item after the first keeps a passing verdict and its summary. |
| CheckOutput.TrackRulesMonotone | codwoe/code/check_output.py:85-115 | Growing the key sets of later items keeps a passing track step unchanged. |
| CheckOutput.DefmodIgnoresOtherKeys | codwoe/code/check_output.py:112-115 | A defmod verdict depends on `id` and `gloss` only. |
| CheckOutput.GapBreaksCompleteness | codwoe/code/check_output.py:79-84 | A missing number in 1..n means the serials are not complete. |
| Order.StrLess | codwoe/code/check_output.py:124 | Python's `<` on strings, which `sorted` uses, holds exactly when the first string is a proper prefix of the second, or has the smaller code point where they first differ. |
| Order.StrLessIsStrictTotalOrder | codwoe/code/check_output.py:124 | Python's string `<` is irreflexive, transitive and total on distinct strings, so `sorted` of a set of strings is well defined. |
| Order.SortSet | codwoe/code/check_output.py:124 | `sorted` of a set lists every element exactly once, in strictly increasing order. |
| Order.SortSetCharacterized | codwoe/code/check_output.py:124 | A sequence equals `sorted(s)` exactly when it is strictly increasing and has the elements of `s`. |
| Order.SortStringsCharacterized | codwoe/code/check_output.py:124 | The same statement, for sets of strings under Python's order. |
| Order.SortedIsRange | codwoe/code/check_output.py:79-81 | `sorted(s) == list(range(1, n + 1))` exactly when `s` is the set {1..n}. |
| Order.DistinctCardinality | codwoe/code/check_output.py:79 | A list has at most as many distinct values as elements. It has exactly as many when no value repeats, so a duplicate serial shrinks the set. |
| Order.Range | codwoe/code/check_output.py:81 | `list(range(lo, hi))` has `hi - lo` elements (none when `lo >= hi`), the i-th being `lo + i`. |
| Text.Split | codwoe/code/check_output.py:54 | `id.split(".")` gives at least one segment, no segment holds a `.`, and joining the segments with `.` gives the id back. |
| Text.SplitJoin | codwoe/code/check_output.py:54 | Splitting `.`-joined segments that hold no `.` gives the segments back. |
| Text.ParseDecimal | codwoe/code/check_output.py:79 | `int(segment)` succeeds exactly on a non-empty run of ASCII digits. The segment is then `str(value)` preceded by zero or more `0` digits, for a non-negative value. |
| Text.DigitsShow | codwoe/code/check_output.py:79 | Every non-empty run of digits is some number of `0` digits followed by the decimal rendering of its value. |
| Text.ParseLeadingZero | codwoe/code/check_output.py:79 | Leading zeros do not change the value: `int("0" + s) == int(s)`, so a serial `01` counts as 1. |
| Text.ParseShow | codwoe/code/check_output.py:79 | `int(str(n)) == n` for every natural number. |
| Text.Words | codwoe/code/visualize_stats.py:33 | `gloss.split()` gives non-empty whitespace-free tokens which, put together, are the gloss's non-whitespace characters in order. |
| Text.WordsOfWord | codwoe/code/visualize_stats.py:33 | A single non-empty whitespace-free token splits to itself. |
| Text.WordsAtSpace | codwoe/code/visualize_stats.py:33 | Any whitespace character separates tokens: the tokens of `a + c + b` are those of `a` followed by those of `b`. Together with `Text.WordsOfWord` and `Text.WordsOfSpaces` this fixes the tokens, and so each gloss length, on every string. |
| Text.WordsUnwords | codwoe/code/visualize_stats.py:33 | `" ".join(ws).split() == ws` for any list of whitespace-free non-empty tokens. |
| Text.WordsOfSpaces | codwoe/code/visualize_stats.py:32-35 | A gloss of whitespace only has no words. |
| Text.WordsEmptyIffBlank | codwoe/code/visualize_stats.py:33 | `s.split()` is empty exactly when every character of `s` is whitespace. |
| VisualizeStats.GlossWords | codwoe/code/visualize_stats.py:32-33 | `entry.get("gloss", "").split()` gives no words exactly when the gloss is all whitespace, and always gives none when the gloss is missing. |
| VisualizeStats.CalculateStats | codwoe/code/visualize_stats.py:18-66 | Results, in order: `total_entries` is the entry count. `gloss_lengths` has one element per entry, in order, each the token count of that entry's gloss. A missing gloss counts 0. A word is in `unique_words` exactly when some gloss has it. A name is in `embedding_types` exactly when some entry has that key and it is not one of the nine non-vector names. There are never more distinct words than words. Empty input gives empty statistics. |
| VisualizeStats.AddEntry | codwoe/code/visualize_stats.py:30-38 | One pass of the loop body keeps the running totals equal to the statistics of the entries seen so far. |
| VisualizeStats.UnionBound | codwoe/code/visualize_stats.py:34 | `unique_words.update(words)` adds at most `len(words)` words. |
| Scenarios.NumberedDefmodAccepted | codwoe/code/check_output.py:44-136 | Some defmod submissions always pass with no vector names reported: ids `<lang>.defmod.1..n` in a known language, and every item glossed. |
| Scenarios.NumberedRevdictAccepted | codwoe/code/check_output.py:44-136 | Every revdict submission with ids `<lang>.revdict.1..n` in a known language passes when it has valid vector names. It reports them sorted. |
| Scenarios.RevdictValid | codwoe/code/check_output.py:85-127 | Items `en.revdict.1` and `en.revdict.2`, each with `sgns` and `char`, pass with vector names `["char", "sgns"]`. |
| Scenarios.RevdictInconsistent | codwoe/code/check_output.py:103-107 | The same submission with `char` missing from the second item gives the missing-vector error. |
| Scenarios.DefmodMissingGloss | codwoe/code/check_output.py:112-115 | `fr.defmod.1` and `fr.defmod.2`, the second without a gloss, give the missing-gloss error. |
| Scenarios.UnknownTrackReported | codwoe/code/check_output.py:67-72 | `<lang>.summarize.1` gives the unknown-track error for any language. |
| Scenarios.UnknownLanguageReported | codwoe/code/check_output.py:73-78 | `de.defmod.1` gives the unknown-language error. |
| Scenarios.EmbeddingTypesCoverVectorArchitectures | codwoe/code/visualize_stats.py:37-41 | On a passing revdict submission, the statistics' embedding names include the checker's vector names. They are exactly those names when no later item has a vector key the first item lacks. |
| Scenarios.FirstKeysAmongAllKeys | codwoe/code/visualize_stats.py:37-41 | The keys outside the nine non-vector names, taken over all entries, include those of the first entry. They equal them exactly when no entry has such a key the first lacks. |

## Left out

- Loading the file (`check_output.py:35-43`) is not modelled. This covers opening it, JSON parsing, and the `ValueError` raised when either fails or when `len(items)` fails on a top-level number, boolean or null. The model's input is always a list of records.
- Other top-level JSON values are not modelled either. An object, a string or a list of strings passes `len(items)` and reaches the checks at line 45, which then iterate over keys or characters. Python's behaviour on those inputs has no counterpart in the model.
- Output is not modelled: all `print` and `logger` output, the success message (including its count of predictions), and the logger set-up. Nothing in the returned summary depends on them.
- Errors carry their kind, plus the offending track or language for `UnknownTrack` and `UnknownLanguage`. The filename and the message text of each `ValueError` are not kept.
- Id sorting: `check_output.py:52` sorts the ids before decoding them. Every later test looks at sets built from all ids, so the order cannot change any outcome and the model does not sort.
- Non-string ids and glosses are not modelled: `Record.id` and `Record.gloss` hold strings. A non-string id raises `TypeError` at `sorted` (`check_output.py:52`) when two ids cannot be ordered with `<` (a string and a non-string, two `null`s, two objects), and otherwise `AttributeError` at `i.split` (line 54). A gloss of `null` or a number makes `gloss.split()` at `visualize_stats.py:33` raise `AttributeError`. `check_output.py` only tests whether `gloss` is present, whatever its value.
- Serials: Python's `int()` also accepts surrounding whitespace, a sign, underscores and non-ASCII digits. The model parses a non-empty run of ASCII digits and treats anything else as unparsable. For example, a serial written `-1` or ` 1` is a parse failure here; in Python it is an incompleteness error or a success.
- Whitespace: `Text.Words` splits on the ASCII whitespace of `str.split()` (tab, newline, vertical tab, form feed, carriage return, the four separators 28-31 and space). The non-ASCII Unicode whitespace Python also splits on is left out.
- Values: only the names of the other keys of an item are kept, since neither core looks at their values. `id` and `gloss` are stored in their own fields. `Record.fields` is meant never to hold `"id"` or `"gloss"`, but the type does not enforce this. Both names are among the nine non-vector names, so every key-set difference comes out the same either way.
- `avg_gloss_length` is not modelled: it is a floating-point division. Also left out are the printed length distribution (`visualize_stats.py:43-57`) and the plotting functions and `load_dataset` of `visualize_stats.py`.
- `codwoe/code/stats.py` is not part of this model. It prints the same statistics and returns nothing.
- `codwoe/code/defmod_concat.py` is not part of this model. It is a neural-network training loop whose control decisions are early stopping and checkpointing, driven by floating-point loss comparisons.
- `codwoe/code/codwoe_entrypoint.py` and the `get_parser` functions are not part of this model. They do command-line argument dispatch.

Three points about `check_output.py` that the model follows exactly:

- An id needs only two segments. `i[-2]` at line 61 raises only for an id with no `.`, and only after the language test at lines 55-60. `CheckOutput.MalformedId` is raised at exactly that point.
- Vector consistency is containment. Line 87 subtracts the nine names from the first item's keys. Lines 103-107 only require every item to contain the resulting names. `CheckOutput.ExtraKeysOnLaterItemsAccepted` proves that extra keys on later items are accepted.
- A serial that does not parse raises inside `int()` at line 79. The model names this `CheckOutput.BadSerial`. It comes after the language test and before the completeness test.

=== FILE: check_output.dfy ===
/**
 * The submission-format checker of `check_output.py`, from the point where the
 * JSON file has been loaded into a list of records. Every check either raises
 * (here: `Failure(kind)`) or lets the next one run; on success the checker
 * reports the filename, track, language and, for `revdict`, the sorted vector
 * architectures.
 */
module CheckOutput {
  import opened Wrappers
  import opened Order
  import opened Text
  import opened Records

  const KnownTracks: set<string> := {"revdict", "defmod"}
  const KnownLanguages: set<string> := {"en", "es", "fr", "it", "ru"}
  const KnownArchitectures: set<string> := {"sgns", "char", "electra"}

  /** One constructor per way the checker stops. */
  datatype CheckError =
    | MissingId                     // some item has no `id`
    | NoUniqueLanguage              // the ids name zero or several languages
    | MalformedId                   // an id without a `.`: Python's `i[-2]` raises IndexError
    | NoUniqueTrack                 // the ids name several tracks
    | UnknownTrack(track: string)   // the track is not `revdict` or `defmod`
    | UnknownLanguage(lang: string) // the language is not one of the five
    | BadSerial                     // a last segment is not a number: `int()` raises ValueError
    | IncompleteIds                 // the serials are not exactly 1..n
    | NoVectorArchitecture          // revdict: the first item names no vector
    | MissingVectors                // revdict: an item lacks one of the first item's vectors
    | UnknownVectorArchitecture     // revdict: a vector name outside sgns, char, electra
    | MissingGloss                  // defmod: an item has no `gloss`

  /** The `CheckSummary` named tuple; `vecArchs` is `None` for `defmod`. */
  datatype CheckSummary = CheckSummary(filename: string, track: string, lang: string, vecArchs: Option<seq<string>>)

  /** What the id checks establish: the one track and the one language of the submission. */
  datatype Decoded = Decoded(track: string, lang: string)

  // ---------------------------------------------------------------------------
  // Decoding ids: `<lang>. ... .<track>.<serial>`

  predicate AllHaveIds(items: seq<Record>) {
    forall i | 0 <= i < |items| :: items[i].id.Some?
  }

  /** The ids of the items, in order (`check_output.py` also sorts them, which no later check can observe). */
  function Ids(items: seq<Record>): (ids: seq<string>)
    requires AllHaveIds(items)
    ensures |ids| == |items|
    ensures forall i | 0 <= i < |items| :: items[i].id == Some(ids[i])
  {
    seq(|items|, i requires 0 <= i < |items| => items[i].id.value)
  }

  function Segments(id: string): seq<string> {
    Split(id, '.')
  }

  /** Segment 0 of the id. */
  function Language(id: string): string {
    Segments(id)[0]
  }

  /** The id has a second-to-last segment. */
  predicate HasTrackSegment(id: string) {
    |Segments(id)| >= 2
  }

  /** Segment -2 of the id. */
  function Track(id: string): string
    requires HasTrackSegment(id)
  {
    var segs := Segments(id);
    segs[|segs| - 2]
  }

  /** Segment -1 of the id, as a number. */
  function Serial(id: string): Option<int> {
    var segs := Segments(id);
    ParseDecimal(segs[|segs| - 1])
  }

  /**
   * The set of languages of the ids; it has exactly one element when the ids
   * are non-empty and all share the first id's language.
   */
  function Languages(ids: seq<string>): (r: set<string>)
    ensures |r| == 1 <==> |ids| > 0 && forall i | 0 <= i < |ids| :: Language(ids[i]) == Language(ids[0])
  {
    var r := set i | 0 <= i < |ids| :: Language(ids[i]);
    if |ids| == 0 then
      assert r == {};
      r
    else
      assert forall i | 0 <= i < |ids| :: Language(ids[i]) in r;
      SingletonSet(r, Language(ids[0]));
      r
  }

  predicate AllHaveTrackSegments(ids: seq<string>) {
    forall i | 0 <= i < |ids| :: HasTrackSegment(ids[i])
  }

  /**
   * The set of tracks of the ids; it has exactly one element when the ids are
   * non-empty and all share the first id's track.
   */
  function Tracks(ids: seq<string>): (r: set<string>)
    requires AllHaveTrackSegments(ids)
    ensures |r| == 1 <==> |ids| > 0 && forall i | 0 <= i < |ids| :: Track(ids[i]) == Track(ids[0])
  {
    var r := set i | 0 <= i < |ids| :: Track(ids[i]);
    if |ids| == 0 then
      assert r == {};
      r
    else
      assert forall i | 0 <= i < |ids| :: Track(ids[i]) in r;
      SingletonSet(r, Track(ids[0]));
      r
  }

  /**
   * The serials of all ids in order, or `None` when one of them does not
   * parse.
   */
  function Serials(ids: seq<string>): (r: Option<seq<int>>)
    ensures r.Some? <==> forall i | 0 <= i < |ids| :: Serial(ids[i]).Some?
    ensures r.Some? ==> |r.value| == |ids|
    ensures r.Some? ==> forall i | 0 <= i < |ids| :: Serial(ids[i]) == Some(r.value[i])
    decreases |ids|
  {
    if |ids| == 0 then Some([])
    else
      var tail := Serials(ids[1..]);
      assert forall i | 1 <= i < |ids| :: ids[i] == ids[1..][i - 1];
      match (Serial(ids[0]), tail)
      case (Some(n), Some(ns)) => Some([n] + ns)
      case _ => None
  }

  /** The id `<lang>.<track>.<serial>` of the task's data format. */
  function MakeId(lang: string, track: string, serial: nat): string {
    Join([lang, track, ShowDecimal(serial)], '.')
  }

  /** Decoding a well-formed id gives back its language, track and serial. */
  lemma MakeIdDecodes(lang: string, track: string, serial: nat)
    requires '.' !in lang && '.' !in track
    ensures Language(MakeId(lang, track, serial)) == lang
    ensures HasTrackSegment(MakeId(lang, track, serial))
    ensures Track(MakeId(lang, track, serial)) == track
    ensures Serial(MakeId(lang, track, serial)) == Some(serial)
  {
    var digits := ShowDecimal(serial);
    assert forall j | 0 <= j < |digits| :: digits[j] != '.';
    SplitJoin([lang, track, digits], '.');
    ParseShow(serial);
  }

  /** The serial test of `check_output.py`: `sorted(set(serials)) == list(range(1, len(ids) + 1))`. */
  predicate SortedSerialsAreRange(serials: seq<int>) {
    SortInts(set n | n in serials) == Range(1, |serials| + 1)
  }

  // ---------------------------------------------------------------------------
  // The checks, in the order `check_output.py` runs them

  lemma OneLanguageNonEmpty(ids: seq<string>)
    requires |Languages(ids)| == 1
    ensures |ids| > 0
  {
    var lang :| lang in Languages(ids);
    var i :| 0 <= i < |ids| && Language(ids[i]) == lang;
  }

  /**
   * The checks on the ids once all are present: one language, one track,
   * both from the closed sets, serials exactly 1..n.
   */
  function DecodeIds(ids: seq<string>): (r: Result<Decoded, CheckError>)
    ensures r.Success? ==> |ids| > 0
    ensures r.Success? ==> r.value.track in KnownTracks && r.value.lang in KnownLanguages
    ensures r != Failure(MissingId)
  {
    if |Languages(ids)| != 1 then Failure(NoUniqueLanguage)
    else if !AllHaveTrackSegments(ids) then Failure(MalformedId)
    else if |Tracks(ids)| != 1 then Failure(NoUniqueTrack)
    else
      OneLanguageNonEmpty(ids);
      var track := Track(ids[0]);
      var lang := Language(ids[0]);
      if track !in KnownTracks then Failure(UnknownTrack(track))
      else if lang !in KnownLanguages then Failure(UnknownLanguage(lang))
      else match Serials(ids)
        case None => Failure(BadSerial)
        case Some(serials) =>
          if !SortedSerialsAreRange(serials) then Failure(IncompleteIds)
          else Success(Decoded(track, lang))
  }

  /** Every check that looks at ids, starting with their presence. */
  function Header(items: seq<Record>): (r: Result<Decoded, CheckError>)
    ensures r.Success? ==> |items| > 0
    ensures r.Success? ==> r.value.track in KnownTracks && r.value.lang in KnownLanguages
  {
    if !AllHaveIds(items) then Failure(MissingId) else DecodeIds(Ids(items))
  }

  /** The keys of all items outside the nine non-vector names. */
  function AllVectorKeys(items: seq<Record>): set<string> {
    (set i, f | 0 <= i < |items| && f in items[i].fields :: f) - NonVectorFields
  }

  /**
   * The first item's vector keys are among all items' vector keys, and are all
   * of them exactly when no item has a vector key the first lacks.
   */
  lemma FirstVectorKeys(items: seq<Record>)
    requires |items| > 0
    ensures items[0].fields - NonVectorFields <= AllVectorKeys(items)
    ensures items[0].fields - NonVectorFields == AllVectorKeys(items) <==>
              forall i | 0 <= i < |items| :: items[i].fields - NonVectorFields <= items[0].fields
  {
    var first, all := items[0].fields - NonVectorFields, AllVectorKeys(items);
    forall f | f in first
      ensures f in all
    {
      assert f in items[0].fields;
    }
    if forall i | 0 <= i < |items| :: items[i].fields - NonVectorFields <= items[0].fields {
      forall f | f in all
        ensures f in first
      {
        var i :| 0 <= i < |items| && f in items[i].fields;
        assert f in items[i].fields - NonVectorFields;
      }
    } else {
      var i :| 0 <= i < |items| && !(items[i].fields - NonVectorFields <= items[0].fields);
      var f :| f in items[i].fields - NonVectorFields && f !in items[0].fields;
      assert f in all && f !in first;
    }
  }

  /**
   * The vector names `set(items[0].keys())` minus the nine non-vector names:
   * taken from the first item only, so they are among the vector keys of all
   * items, and equal to them exactly when no item adds one.
   */
  function VectorArchitectures(items: seq<Record>): (r: set<string>)
    requires |items| > 0
    ensures "id" !in r && "gloss" !in r
    ensures r <= AllVectorKeys(items)
    ensures r == AllVectorKeys(items) <==>
              forall i | 0 <= i < |items| :: items[i].fields - NonVectorFields <= items[0].fields
  {
    FirstVectorKeys(items);
    items[0].fields - NonVectorFields
  }

  /** The track-specific checks and the summary. */
  function TrackRules(filename: string, items: seq<Record>, d: Decoded): (r: Result<CheckSummary, CheckError>)
    requires |items| > 0
    ensures r.Success? ==> r.value.filename == filename && r.value.track == d.track && r.value.lang == d.lang
    ensures r.Failure? ==> r.error in {NoVectorArchitecture, MissingVectors, UnknownVectorArchitecture, MissingGloss}
    ensures r.Success? ==> (r.value.vecArchs.Some? <==> d.track == "revdict")
  {
    if d.track == "revdict" then
      var vecArchs := VectorArchitectures(items);
      if |vecArchs| == 0 then Failure(NoVectorArchitecture)
      else if !(forall i | 0 <= i < |items| :: vecArchs <= items[i].fields) then Failure(MissingVectors)
      else if |vecArchs - KnownArchitectures| != 0 then Failure(UnknownVectorArchitecture)
      else Success(CheckSummary(filename, d.track, d.lang, Some(SortStrings(vecArchs))))
    else if d.track == "defmod" && exists i | 0 <= i < |items| :: items[i].gloss.None? then Failure(MissingGloss)
    else Success(CheckSummary(filename, d.track, d.lang, None))
  }

  /** `main(filename)` of `check_output.py` after the file has been loaded. */
  function Check(filename: string, items: seq<Record>): (r: Result<CheckSummary, CheckError>)
    ensures r.Success? ==> r.value.filename == filename
    ensures r.Success? ==> r.value.track in KnownTracks && r.value.lang in KnownLanguages
    ensures r.Success? ==> (r.value.vecArchs.Some? <==> r.value.track == "revdict")
  {
    match Header(items)
    case Failure(e) => Failure(e)
    case Success(d) => TrackRules(filename, items, d)
  }

  // ---------------------------------------------------------------------------
  // What a passing submission looks like, stated without reference to the checker

  /** The ids are not empty, each has a track segment, and all decode to `lang` and `track`. */
  ghost predicate UniformIds(ids: seq<string>, lang: string, track: string) {
    && |ids| > 0
    && forall i | 0 <= i < |ids| ::
         HasTrackSegment(ids[i]) && Language(ids[i]) == lang && Track(ids[i]) == track
  }

  /** The serials all parse and are a permutation of 1..n. */
  ghost predicate SerialsComplete(ids: seq<string>) {
    && (forall i | 0 <= i < |ids| :: Serial(ids[i]).Some? && 1 <= Serial(ids[i]).value <= |ids|)
    && (forall i, j | 0 <= i < j < |ids| :: Serial(ids[i]) != Serial(ids[j]))
  }

  /**
   * The first item names at least one vector, every name is a known
   * architecture, and every item carries all of them.
   */
  predicate VectorKeysValid(items: seq<Record>)
    requires |items| > 0
  {
    var archs := VectorArchitectures(items);
    && archs != {}
    && archs <= KnownArchitectures
    && forall i | 0 <= i < |items| :: archs <= items[i].fields
  }

  /** What a successful revdict check promises: valid vector names, reported sorted. */
  ghost predicate RevdictRulesHold(items: seq<Record>, s: CheckSummary)
    requires |items| > 0
  {
    && VectorKeysValid(items)
    && s.vecArchs.Some?
    && SortedStringsOf(s.vecArchs.value, VectorArchitectures(items))
  }

  /** What a successful defmod check promises: every item has a gloss, and no vector names are reported. */
  ghost predicate DefmodRulesHold(items: seq<Record>, s: CheckSummary) {
    && (forall i | 0 <= i < |items| :: items[i].gloss.Some?)
    && s.vecArchs == None
  }

  /** What a successful check promises about the track-specific keys and the summary. */
  ghost predicate RulesHold(items: seq<Record>, s: CheckSummary)
    requires |items| > 0
  {
    && (s.track == "revdict" ==> RevdictRulesHold(items, s))
    && (s.track == "defmod" ==> DefmodRulesHold(items, s))
  }

  /** Everything a successful check promises about the items and the summary. */
  ghost predicate Accepted(filename: string, items: seq<Record>, s: CheckSummary) {
    && s.filename == filename
    && AllHaveIds(items)
    && UniformIds(Ids(items), s.lang, s.track)
    && s.track in KnownTracks
    && s.lang in KnownLanguages
    && SerialsComplete(Ids(items))
    && RulesHold(items, s)
  }

  // ---------------------------------------------------------------------------
  // Facts about small sets

  /** A set holding `x` has one element exactly when every element is `x`. */
  lemma SingletonSet<T>(s: set<T>, x: T)
    requires x in s
    ensures |s| == 1 <==> forall y | y in s :: y == x
  {
    if forall y | y in s :: y == x {
      assert s == {x};
    } else {
      var y :| y in s && y != x;
      TwoMembers(s, x, y);
    }
  }

  lemma TwoMembers<T>(s: set<T>, a: T, b: T)
    requires a in s && b in s && a != b
    ensures |s| >= 2
  {
    assert |s - {a}| == |s| - 1;
    assert b in s - {a};
  }

  lemma SubsetSameSize<T>(a: set<T>, b: set<T>)
    requires a <= b && |a| == |b|
    ensures a == b
  {
    assert |b - a| == |b| - |a| by {
      assert b == a + (b - a);
      assert a !! (b - a);
    }
    assert b - a == {};
  }

  lemma LanguagesOfUniform(ids: seq<string>, lang: string)
    requires |ids| > 0
    requires forall i | 0 <= i < |ids| :: Language(ids[i]) == lang
    ensures Languages(ids) == {lang}
  {
    assert Language(ids[0]) in Languages(ids);
  }

  lemma TracksOfUniform(ids: seq<string>, track: string)
    requires |ids| > 0 && AllHaveTrackSegments(ids)
    requires forall i | 0 <= i < |ids| :: Track(ids[i]) == track
    ensures Tracks(ids) == {track}
  {
    assert Track(ids[0]) in Tracks(ids);
  }

  // ---------------------------------------------------------------------------
  // Serial completeness

  /**
   * `sorted(set(ns)) == list(range(1, len(ns) + 1))` holds exactly when `ns`
   * is a permutation of 1..n: every value in range and no value twice.
   */
  lemma SortedRangeMeansPermutation(ns: seq<int>)
    ensures SortedSerialsAreRange(ns) <==> (forall i | 0 <= i < |ns| :: 1 <= ns[i] <= |ns|) && Distinct(ns)
    ensures SortedSerialsAreRange(ns) ==> forall k | 1 <= k <= |ns| :: k in ns
  {
    var n := |ns|;
    var s := set x | x in ns;
    SortedIsRange(s, n);
    DistinctCardinality(ns);
    if SortedSerialsAreRange(ns) {
      assert |s| == n;
      forall i | 0 <= i < n
        ensures 1 <= ns[i] <= n
      {
        assert ns[i] in s;
      }
      forall k | 1 <= k <= n
        ensures k in ns
      {
        assert k in s;
      }
    }
    if (forall i | 0 <= i < n :: 1 <= ns[i] <= n) && Distinct(ns) {
      assert s <= Interval(n);
      SubsetSameSize(s, Interval(n));
    }
  }

  lemma CompleteSerialsPassTest(ids: seq<string>)
    requires SerialsComplete(ids)
    ensures Serials(ids).Some? && SortedSerialsAreRange(Serials(ids).value)
  {
    var n := |ids|;
    var ns := Serials(ids).value;
    forall i | 0 <= i < n
      ensures 1 <= ns[i] <= n
    {
      assert Serial(ids[i]) == Some(ns[i]);
    }
    forall i, j | 0 <= i < j < n
      ensures ns[i] != ns[j]
    {
      assert Serial(ids[i]) != Serial(ids[j]);
    }
    SortedRangeMeansPermutation(ns);
  }

  lemma PassingTestMeansComplete(ids: seq<string>)
    requires Serials(ids).Some? && SortedSerialsAreRange(Serials(ids).value)
    ensures SerialsComplete(ids)
  {
    var n := |ids|;
    var ns := Serials(ids).value;
    SortedRangeMeansPermutation(ns);
    forall i | 0 <= i < n
      ensures Serial(ids[i]).Some? && 1 <= Serial(ids[i]).value <= n
    {
      assert Serial(ids[i]) == Some(ns[i]);
    }
    forall i, j | 0 <= i < j < n
      ensures Serial(ids[i]) != Serial(ids[j])
    {
      assert Serial(ids[i]) == Some(ns[i]) && Serial(ids[j]) == Some(ns[j]);
    }
  }

  /**
   * The serial test of `check_output.py` holds exactly when every serial parses and the
   * serials are a permutation of 1..n.
   */
  lemma SerialTestMeansPermutation(ids: seq<string>)
    ensures (Serials(ids).Some? && SortedSerialsAreRange(Serials(ids).value)) <==> SerialsComplete(ids)
  {
    if SerialsComplete(ids) {
      CompleteSerialsPassTest(ids);
    }
    if Serials(ids).Some? && SortedSerialsAreRange(Serials(ids).value) {
      PassingTestMeansComplete(ids);
    }
  }

  /** A number in 1..n that is no id's serial makes the serials incomplete. */
  lemma GapBreaksCompleteness(ids: seq<string>, k: int)
    requires 1 <= k <= |ids| && forall i | 0 <= i < |ids| :: Serial(ids[i]) != Some(k)
    ensures !SerialsComplete(ids)
  {
    SerialTestMeansPermutation(ids);
    if Serials(ids).Some? {
      var ns := Serials(ids).value;
      SortedRangeMeansPermutation(ns);
      forall i | 0 <= i < |ns|
        ensures ns[i] != k
      {
        assert Serial(ids[i]) == Some(ns[i]);
      }
      assert k !in ns;
    }
  }

  // ---------------------------------------------------------------------------
  // The central theorem: when the check succeeds, and what it then reports

  /** When the id checks pass, every id decodes to the reported track and language. */
  lemma DecodeSuccessUniform(ids: seq<string>)
    requires DecodeIds(ids).Success?
    ensures UniformIds(ids, DecodeIds(ids).value.lang, DecodeIds(ids).value.track)
  {
    var d := DecodeIds(ids).value;
    assert AllHaveTrackSegments(ids);
    var langs, tracks := Languages(ids), Tracks(ids);
    assert |langs| == 1 && |tracks| == 1;
    assert d.track == Track(ids[0]) && d.lang == Language(ids[0]);
  }

  /**
   * The id checks pass, with track and language `d`, exactly when the ids are
   * uniform, the track and language known, and the serials complete.
   */
  lemma DecodeAccepts(ids: seq<string>, d: Decoded)
    ensures DecodeIds(ids) == Success(d) <==>
              && UniformIds(ids, d.lang, d.track)
              && d.track in KnownTracks
              && d.lang in KnownLanguages
              && SerialsComplete(ids)
  {
    if UniformIds(ids, d.lang, d.track) {
      LanguagesOfUniform(ids, d.lang);
      TracksOfUniform(ids, d.track);
      SerialTestMeansPermutation(ids);
    } else if DecodeIds(ids).Success? {
      DecodeSuccessUniform(ids);
    }
  }

  /** The revdict step passes exactly when the first item's vector names are valid, and then reports them sorted. */
  lemma RevdictOutcome(filename: string, items: seq<Record>, d: Decoded)
    requires |items| > 0 && d.track == "revdict"
    ensures TrackRules(filename, items, d).Success? <==> VectorKeysValid(items)
    ensures VectorKeysValid(items) ==>
              TrackRules(filename, items, d) ==
                Success(CheckSummary(filename, d.track, d.lang, Some(SortStrings(VectorArchitectures(items)))))
  {
  }

  lemma RevdictRulesAccept(filename: string, items: seq<Record>, d: Decoded, s: CheckSummary)
    requires |items| > 0 && d.track == "revdict"
    requires s.filename == filename && s.track == d.track && s.lang == d.lang
    ensures TrackRules(filename, items, d) == Success(s) <==> RulesHold(items, s)
  {
    RevdictOutcome(filename, items, d);
    if !VectorKeysValid(items) {
      assert !RevdictRulesHold(items, s);
    } else if s.vecArchs.None? {
      assert !RevdictRulesHold(items, s);
    } else {
      var archs := VectorArchitectures(items);
      var sorted := SortStrings(archs);
      assert TrackRules(filename, items, d) == Success(CheckSummary(filename, d.track, d.lang, Some(sorted)));
      assert s == CheckSummary(filename, d.track, d.lang, Some(sorted)) <==> s.vecArchs.value == sorted;
      SortStringsCharacterized(archs, s.vecArchs.value);
    }
  }

  lemma DefmodRulesAccept(filename: string, items: seq<Record>, d: Decoded, s: CheckSummary)
    requires |items| > 0 && d.track == "defmod"
    requires s.filename == filename && s.track == d.track && s.lang == d.lang
    ensures TrackRules(filename, items, d) == Success(s) <==> RulesHold(items, s)
  {
  }

  /** The track rules succeed with summary `s` exactly when the keys are as `RulesHold` describes. */
  lemma TrackRulesAccept(filename: string, items: seq<Record>, d: Decoded, s: CheckSummary)
    requires |items| > 0 && d.track in KnownTracks
    requires s.filename == filename && s.track == d.track && s.lang == d.lang
    ensures TrackRules(filename, items, d) == Success(s) <==> RulesHold(items, s)
  {
    if d.track == "revdict" {
      RevdictRulesAccept(filename, items, d, s);
    } else {
      DefmodRulesAccept(filename, items, d, s);
    }
  }

  lemma SuccessIsAccepted(filename: string, items: seq<Record>, s: CheckSummary)
    requires Check(filename, items) == Success(s)
    ensures Accepted(filename, items, s)
  {
    var d := Decoded(s.track, s.lang);
    assert Header(items) == Success(d);
    DecodeAccepts(Ids(items), d);
    TrackRulesAccept(filename, items, d, s);
  }

  lemma AcceptedSucceeds(filename: string, items: seq<Record>, s: CheckSummary)
    requires Accepted(filename, items, s)
    ensures Check(filename, items) == Success(s)
  {
    var d := Decoded(s.track, s.lang);
    DecodeAccepts(Ids(items), d);
    assert Header(items) == Success(d);
    TrackRulesAccept(filename, items, d, s);
  }

  /**
   * The check succeeds with summary `s` exactly when the items and `s` are as
   * `Accepted` describes: success is decided by the ids, the first item's
   * vector names and the presence of glosses, and nothing else.
   */
  lemma CheckAccepts(filename: string, items: seq<Record>, s: CheckSummary)
    ensures Check(filename, items) == Success(s) <==> Accepted(filename, items, s)
  {
    if Check(filename, items) == Success(s) {
      SuccessIsAccepted(filename, items, s);
    }
    if Accepted(filename, items, s) {
      AcceptedSucceeds(filename, items, s);
    }
  }

  // ---------------------------------------------------------------------------
  // Which error each kind of bad submission gets

  /** A missing id is reported before anything else, and only a missing id is reported so. */
  lemma MissingIdFirst(filename: string, items: seq<Record>)
    ensures Check(filename, items) == Failure(MissingId) <==> !AllHaveIds(items)
  {
  }

  /** An empty submission names no language. */
  lemma EmptyRejected(filename: string)
    ensures Check(filename, []) == Failure(NoUniqueLanguage)
  {
    assert Languages(Ids([])) == {};
  }

  /** Two items in different languages: the language error. */
  lemma TwoLanguagesRejected(filename: string, items: seq<Record>, i: nat, j: nat)
    requires AllHaveIds(items) && i < |items| && j < |items|
    requires Language(items[i].id.value) != Language(items[j].id.value)
    ensures Check(filename, items) == Failure(NoUniqueLanguage)
  {
    var ids := Ids(items);
    TwoMembers(Languages(ids), Language(ids[i]), Language(ids[j]));
  }

  /**
   * An id without a `.` passes the language check (its only segment is its
   * language) and then stops the track check.
   */
  lemma ShortIdRejected(filename: string, items: seq<Record>, lang: string, k: nat)
    requires AllHaveIds(items) && k < |items|
    requires forall i | 0 <= i < |items| :: Language(items[i].id.value) == lang
    requires !HasTrackSegment(items[k].id.value)
    ensures Check(filename, items) == Failure(MalformedId)
  {
    LanguagesOfUniform(Ids(items), lang);
  }

  /** One language but two tracks: the track error. */
  lemma TwoTracksRejected(filename: string, items: seq<Record>, lang: string, i: nat, j: nat)
    requires AllHaveIds(items) && i < |items| && j < |items|
    requires forall k | 0 <= k < |items| :: Language(items[k].id.value) == lang && HasTrackSegment(items[k].id.value)
    requires Track(items[i].id.value) != Track(items[j].id.value)
    ensures Check(filename, items) == Failure(NoUniqueTrack)
  {
    var ids := Ids(items);
    LanguagesOfUniform(ids, lang);
    TwoMembers(Tracks(ids), Track(ids[i]), Track(ids[j]));
  }

  /** An unknown track is reported whatever the language, so before an unknown language. */
  lemma UnknownTrackFirst(filename: string, items: seq<Record>, lang: string, track: string)
    requires AllHaveIds(items) && UniformIds(Ids(items), lang, track)
    requires track !in KnownTracks
    ensures Check(filename, items) == Failure(UnknownTrack(track))
  {
    LanguagesOfUniform(Ids(items), lang);
    TracksOfUniform(Ids(items), track);
  }

  /** A known track with an unknown language: the language error. */
  lemma UnknownLanguageRejected(filename: string, items: seq<Record>, lang: string, track: string)
    requires AllHaveIds(items) && UniformIds(Ids(items), lang, track)
    requires track in KnownTracks && lang !in KnownLanguages
    ensures Check(filename, items) == Failure(UnknownLanguage(lang))
  {
    LanguagesOfUniform(Ids(items), lang);
    TracksOfUniform(Ids(items), track);
  }

  /**
   * With uniform ids and a known track and language, the serial step decides:
   * an unparsable serial, then anything but a permutation of 1..n, fails;
   * otherwise the track rules decide.
   */
  lemma SerialStep(filename: string, items: seq<Record>, lang: string, track: string)
    requires AllHaveIds(items) && UniformIds(Ids(items), lang, track)
    requires track in KnownTracks && lang in KnownLanguages
    ensures Check(filename, items) ==
              if !(forall i | 0 <= i < |items| :: Serial(items[i].id.value).Some?) then Failure(BadSerial)
              else if !SerialsComplete(Ids(items)) then Failure(IncompleteIds)
              else TrackRules(filename, items, Decoded(track, lang))
  {
    var ids := Ids(items);
    LanguagesOfUniform(ids, lang);
    TracksOfUniform(ids, track);
    SerialTestMeansPermutation(ids);
  }

  /** Two items with the same serial: the completeness error. */
  lemma DuplicateSerialRejected(filename: string, items: seq<Record>, lang: string, track: string, i: nat, j: nat)
    requires AllHaveIds(items) && UniformIds(Ids(items), lang, track)
    requires track in KnownTracks && lang in KnownLanguages
    requires forall k | 0 <= k < |items| :: Serial(items[k].id.value).Some?
    requires i < j < |items| && Serial(items[i].id.value) == Serial(items[j].id.value)
    ensures Check(filename, items) == Failure(IncompleteIds)
  {
    SerialStep(filename, items, lang, track);
  }

  /** A number in 1..n that no item carries as its serial: the completeness error. */
  lemma SerialGapRejected(filename: string, items: seq<Record>, lang: string, track: string, k: int)
    requires AllHaveIds(items) && UniformIds(Ids(items), lang, track)
    requires track in KnownTracks && lang in KnownLanguages
    requires forall i | 0 <= i < |items| :: Serial(items[i].id.value).Some?
    requires 1 <= k <= |items| && forall i | 0 <= i < |items| :: Serial(items[i].id.value) != Some(k)
    ensures Check(filename, items) == Failure(IncompleteIds)
  {
    SerialStep(filename, items, lang, track);
    GapBreaksCompleteness(Ids(items), k);
  }

  /**
   * The revdict rules: no vector name, then a missing vector, then an unknown
   * name; the missing-vector test comes before the unknown-name test.
   */
  lemma RevdictRules(filename: string, items: seq<Record>, lang: string)
    requires |items| > 0
    ensures var archs := items[0].fields - NonVectorFields;
            var r := TrackRules(filename, items, Decoded("revdict", lang));
            && (archs == {} ==> r == Failure(NoVectorArchitecture))
            && (archs != {} && (exists i | 0 <= i < |items| :: !(archs <= items[i].fields)) ==>
                  r == Failure(MissingVectors))
            && (archs != {} && (forall i | 0 <= i < |items| :: archs <= items[i].fields) && !(archs <= KnownArchitectures) ==>
                  r == Failure(UnknownVectorArchitecture))
            && (r.Success? <==>
                  archs != {} && archs <= KnownArchitectures && forall i | 0 <= i < |items| :: archs <= items[i].fields)
  {
  }

  /** The defmod rule: success exactly when every item has a gloss. */
  lemma DefmodRule(filename: string, items: seq<Record>, lang: string)
    requires |items| > 0
    ensures TrackRules(filename, items, Decoded("defmod", lang)) ==
              if forall i | 0 <= i < |items| :: items[i].gloss.Some?
              then Success(CheckSummary(filename, "defmod", lang, None))
              else Failure(MissingGloss)
  {
  }

  // ---------------------------------------------------------------------------
  // What the check does not look at

  /** The id checks see the ids and nothing else. */
  lemma HeaderDependsOnIdsOnly(a: seq<Record>, b: seq<Record>)
    requires |a| == |b| && forall i | 0 <= i < |a| :: a[i].id == b[i].id
    ensures Header(a) == Header(b)
  {
    if AllHaveIds(a) {
      assert Ids(a) == Ids(b);
    }
  }

  /**
   * Vector consistency is containment, not equality: once a submission passes,
   * adding keys to any item but the first keeps the verdict and the summary.
   */
  lemma ExtraKeysOnLaterItemsAccepted(filename: string, items: seq<Record>, k: nat, extra: set<string>)
    requires Check(filename, items).Success?
    requires 0 < k < |items|
    ensures Check(filename, items[k := items[k].(fields := items[k].fields + extra)]) == Check(filename, items)
  {
    var items' := items[k := items[k].(fields := items[k].fields + extra)];
    HeaderDependsOnIdsOnly(items, items');
    var d := Header(items).value;
    assert Check(filename, items) == TrackRules(filename, items, d);
    assert Check(filename, items') == TrackRules(filename, items', d);
    assert items'[0] == items[0];
    forall i | 0 <= i < |items|
      ensures items[i].fields <= items'[i].fields && items'[i].gloss == items[i].gloss
    {
      if i != k {
        assert items'[i] == items[i];
      }
    }
    TrackRulesMonotone(filename, items, items', d);
  }

  /** Growing the key sets of the items after the first keeps a passing verdict of the track rules. */
  lemma TrackRulesMonotone(filename: string, a: seq<Record>, b: seq<Record>, d: Decoded)
    requires |a| == |b| > 0 && a[0] == b[0]
    requires forall i | 0 <= i < |a| :: a[i].fields <= b[i].fields && a[i].gloss == b[i].gloss
    requires TrackRules(filename, a, d).Success?
    ensures TrackRules(filename, b, d) == TrackRules(filename, a, d)
  {
    assert VectorArchitectures(a) == VectorArchitectures(b);
    if d.track == "revdict" {
      RevdictOutcome(filename, a, d);
      RevdictOutcome(filename, b, d);
    } else if d.track == "defmod" {
      assert forall i | 0 <= i < |a| :: a[i].gloss.Some?;
    }
  }

  /** A defmod submission's verdict does not depend on any key but `id` and `gloss`. */
  lemma DefmodIgnoresOtherKeys(filename: string, a: seq<Record>, b: seq<Record>)
    requires |a| == |b| && forall i | 0 <= i < |a| :: a[i].id == b[i].id && a[i].gloss == b[i].gloss
    requires Header(a).Success? && Header(a).value.track == "defmod"
    ensures Check(filename, a) == Check(filename, b)
  {
    HeaderDependsOnIdsOnly(a, b);
  }
}

=== FILE: order.dfy ===
/**
 * Orders, sorting of finite sets and integer ranges: the pieces behind Python's
 * `sorted({...})`, `list(range(lo, hi))` and the comparison of strings.
 */
module Order {

  /** `lt` is irreflexive, transitive and relates any two distinct values. */
  ghost predicate StrictTotalOrder<T(!new)>(lt: (T, T) -> bool) {
    && (forall a :: !lt(a, a))
    && (forall a, b, c :: lt(a, b) && lt(b, c) ==> lt(a, c))
    && (forall a, b :: a != b ==> lt(a, b) || lt(b, a))
  }

  /** Python's `<` on integers. */
  predicate IntLess(a: int, b: int) {
    a < b
  }

  /**
   * The dictionary order by code point: `a` is a proper prefix of `b`, or at
   * the first position where they differ `a` has the smaller character.
   */
  ghost predicate Lexicographic(a: string, b: string) {
    || (|a| < |b| && a == b[..|a|])
    || exists k | 0 <= k < |a| && k < |b| :: a[..k] == b[..k] && a[k] < b[k]
  }

  /** Moving past an equal first character keeps the dictionary order. */
  lemma LexicographicStep(a: string, b: string)
    requires |a| > 0 && |b| > 0 && a[0] == b[0]
    ensures Lexicographic(a, b) <==> Lexicographic(a[1..], b[1..])
  {
    var a', b' := a[1..], b[1..];
    if |a'| < |b'| && a' == b'[..|a'|] {
      assert a == [a[0]] + a' && b[..|a|] == [b[0]] + b'[..|a'|];
    }
    if |a| < |b| && a == b[..|a|] {
      assert a' == b'[..|a'|];
    }
    if k :| 0 <= k < |a'| && k < |b'| && a'[..k] == b'[..k] && a'[k] < b'[k] {
      assert a[..k + 1] == [a[0]] + a'[..k] && b[..k + 1] == [b[0]] + b'[..k];
      assert a[k + 1] == a'[k] && b[k + 1] == b'[k];
    }
    if k :| 0 <= k < |a| && k < |b| && a[..k] == b[..k] && a[k] < b[k] {
      assert k > 0;
      assert a'[..k - 1] == a[1..k] && b'[..k - 1] == b[1..k];
      assert a[1..k] == a[..k][1..] && b[1..k] == b[..k][1..];
      assert a'[k - 1] == a[k] && b'[k - 1] == b[k];
    }
  }

  /** Python's `<` on strings, which is the dictionary order by code point. */
  predicate StrLess(a: string, b: string)
    ensures StrLess(a, b) <==> Lexicographic(a, b)
    decreases |a|
  {
    if |a| == 0 then
      assert |b| > 0 ==> a == b[..0];
      |b| > 0
    else if |b| == 0 then false
    else if a[0] != b[0] then
      assert a[..0] == b[..0];
      a[0] < b[0]
    else
      LexicographicStep(a, b);
      StrLess(a[1..], b[1..])
  }

  lemma IntLessIsStrictTotalOrder()
    ensures StrictTotalOrder(IntLess)
  {
  }

  lemma {:induction false} StrLessIrreflexive(a: string)
    ensures !StrLess(a, a)
    decreases |a|
  {
    if |a| > 0 {
      StrLessIrreflexive(a[1..]);
    }
  }

  lemma {:induction false} StrLessTransitive(a: string, b: string, c: string)
    requires StrLess(a, b) && StrLess(b, c)
    ensures StrLess(a, c)
    decreases |a|
  {
    if |a| > 0 && a[0] == b[0] && b[0] == c[0] {
      StrLessTransitive(a[1..], b[1..], c[1..]);
    }
  }

  lemma {:induction false} StrLessTotal(a: string, b: string)
    requires a != b
    ensures StrLess(a, b) || StrLess(b, a)
    decreases |a|
  {
    if |a| > 0 && |b| > 0 && a[0] == b[0] {
      assert a == [a[0]] + a[1..] && b == [b[0]] + b[1..];
      StrLessTotal(a[1..], b[1..]);
    }
  }

  /** String comparison is a strict total order, so sorting strings is well defined. */
  lemma StrLessIsStrictTotalOrder()
    ensures StrictTotalOrder(StrLess)
  {
    forall a: string
      ensures !StrLess(a, a)
    {
      StrLessIrreflexive(a);
    }
    forall a: string, b: string, c: string | StrLess(a, b) && StrLess(b, c)
      ensures StrLess(a, c)
    {
      StrLessTransitive(a, b, c);
    }
    forall a: string, b: string | a != b
      ensures StrLess(a, b) || StrLess(b, a)
    {
      StrLessTotal(a, b);
    }
  }

  /** `m` is the least element of `s` under `lt`. */
  predicate IsLeast<T(==)>(m: T, s: set<T>, lt: (T, T) -> bool) {
    m in s && forall x | x in s && x != m :: lt(m, x)
  }

  predicate StrictlyIncreasing<T>(s: seq<T>, lt: (T, T) -> bool) {
    forall i, j | 0 <= i < j < |s| :: lt(s[i], s[j])
  }

  lemma {:induction false} LeastExists<T(!new)>(s: set<T>, lt: (T, T) -> bool)
    requires StrictTotalOrder(lt)
    requires s != {}
    ensures exists m :: IsLeast(m, s, lt)
    decreases |s|
  {
    var x :| x in s;
    if s == {x} {
      assert IsLeast(x, s, lt);
    } else {
      LeastExists(s - {x}, lt);
      var m :| IsLeast(m, s - {x}, lt);
      if lt(x, m) {
        forall y | y in s && y != x
          ensures lt(x, y)
        {
          if y != m {
            assert lt(m, y);
          }
        }
        assert IsLeast(x, s, lt);
      } else {
        assert IsLeast(m, s, lt);
      }
    }
  }

  /**
   * The elements of `s` in increasing order (Python `sorted(s)` for a set):
   * exactly the elements of `s`, each once, strictly increasing.
   */
  function SortSet<T(!new)>(s: set<T>, lt: (T, T) -> bool): (r: seq<T>)
    requires StrictTotalOrder(lt)
    ensures |r| == |s|
    ensures forall x :: x in r <==> x in s
    ensures StrictlyIncreasing(r, lt)
    decreases |s|
  {
    if s == {} then []
    else
      LeastExists(s, lt);
      var m :| IsLeast(m, s, lt);
      var rest := SortSet(s - {m}, lt);
      assert forall j | 0 <= j < |rest| :: rest[j] in s - {m};
      [m] + rest
  }

  /** Two strictly increasing sequences with the same elements are equal. */
  lemma {:induction false} SortedUnique<T(!new)>(a: seq<T>, b: seq<T>, lt: (T, T) -> bool)
    requires StrictTotalOrder(lt)
    requires StrictlyIncreasing(a, lt) && StrictlyIncreasing(b, lt)
    requires forall x :: x in a <==> x in b
    ensures a == b
    decreases |a|
  {
    assert forall k | 0 <= k < |a| :: a[k] in b;
    assert forall k | 0 <= k < |b| :: b[k] in a;
    if |a| == 0 || |b| == 0 {
      assert |a| == 0 && |b| == 0;
    } else {
      var x0, y0 := a[0], b[0];
      assert x0 == y0 || lt(x0, y0);
      assert x0 == y0 || lt(y0, x0);
      assert x0 == y0;
      forall x
        ensures x in a[1..] <==> x in b[1..]
      {
        if x in a[1..] {
          var k :| 1 <= k < |a| && a[k] == x;
          assert x != a[0];
        }
        if x in b[1..] {
          var k :| 1 <= k < |b| && b[k] == x;
          assert x != b[0];
        }
        assert x in a <==> x == a[0] || x in a[1..];
        assert x in b <==> x == b[0] || x in b[1..];
      }
      SortedUnique(a[1..], b[1..], lt);
      assert a == [a[0]] + a[1..] && b == [b[0]] + b[1..];
    }
  }

  /** A sequence is the sorted form of a set exactly when it is strictly increasing with those elements. */
  lemma SortSetCharacterized<T(!new)>(s: set<T>, r: seq<T>, lt: (T, T) -> bool)
    requires StrictTotalOrder(lt)
    ensures SortSet(s, lt) == r <==> StrictlyIncreasing(r, lt) && forall x :: x in r <==> x in s
  {
    if StrictlyIncreasing(r, lt) && forall x :: x in r <==> x in s {
      SortedUnique(SortSet(s, lt), r, lt);
    }
  }

  /** Python `list(range(lo, hi))`. */
  function Range(lo: int, hi: int): (r: seq<int>)
    ensures |r| == if lo <= hi then hi - lo else 0
    ensures forall i | 0 <= i < |r| :: r[i] == lo + i
    decreases hi - lo
  {
    if lo >= hi then [] else [lo] + Range(lo + 1, hi)
  }

  /** The integers 1 to n, as a set. */
  function Interval(n: nat): (r: set<int>)
    ensures |r| == n
    ensures forall k :: k in r <==> 1 <= k <= n
  {
    if n == 0 then {} else Interval(n - 1) + {n}
  }

  /** Python `sorted(s)` for a set of integers. */
  function SortInts(s: set<int>): (r: seq<int>)
    ensures |r| == |s|
    ensures forall x :: x in r <==> x in s
    ensures StrictlyIncreasing(r, IntLess)
  {
    IntLessIsStrictTotalOrder();
    SortSet(s, IntLess)
  }

  /** Python `sorted(s)` for a set of strings. */
  function SortStrings(s: set<string>): (r: seq<string>)
    ensures |r| == |s|
    ensures forall x :: x in r <==> x in s
    ensures StrictlyIncreasing(r, StrLess)
  {
    StrLessIsStrictTotalOrder();
    SortSet(s, StrLess)
  }

  /** `r` lists the strings of `s` in increasing order, each once. */
  ghost predicate SortedStringsOf(r: seq<string>, s: set<string>) {
    StrictlyIncreasing(r, StrLess) && forall x :: x in r <==> x in s
  }

  /** A sequence is the sorted form of a string set exactly when it is strictly increasing with those elements. */
  lemma SortStringsCharacterized(s: set<string>, r: seq<string>)
    ensures SortStrings(s) == r <==> SortedStringsOf(r, s)
  {
    StrLessIsStrictTotalOrder();
    SortSetCharacterized(s, r, StrLess);
  }

  /**
   * The sorted form of an integer set is `[1, ..., n]` exactly when the set is
   * `{1, ..., n}`: comparing `sorted(set)` with `list(range(1, n + 1))` is a set test.
   */
  lemma SortedIsRange(s: set<int>, n: nat)
    ensures SortInts(s) == Range(1, n + 1) <==> s == Interval(n)
  {
    IntLessIsStrictTotalOrder();
    var r := Range(1, n + 1);
    assert StrictlyIncreasing(r, IntLess);
    forall x
      ensures x in r <==> 1 <= x <= n
    {
      if 1 <= x <= n {
        assert r[x - 1] == x;
      }
    }
    SortSetCharacterized(s, r, IntLess);
  }

  /** No value occurs twice. */
  predicate Distinct<T(==)>(s: seq<T>) {
    forall i, j | 0 <= i < j < |s| :: s[i] != s[j]
  }

  /** A sequence has as many distinct values as elements exactly when no value repeats. */
  lemma {:induction false} DistinctCardinality<T>(s: seq<T>)
    ensures |set x | x in s| <= |s|
    ensures |set x | x in s| == |s| <==> Distinct(s)
    decreases |s|
  {
    if |s| > 0 {
      var t := s[1..];
      DistinctCardinality(t);
      assert (set x | x in s) == {s[0]} + (set x | x in t) by {
        assert s == [s[0]] + t;
      }
      if s[0] in t {
        var k :| 0 <= k < |t| && t[k] == s[0];
        assert s[0] == s[k + 1];
        assert !Distinct(s);
      } else {
        assert Distinct(s) <==> Distinct(t) by {
          if Distinct(t) {
            forall i, j | 0 <= i < j < |s|
              ensures s[i] != s[j]
            {
              if i > 0 {
                assert s[i] == t[i - 1] && s[j] == t[j - 1];
              } else {
                assert s[j] in t;
              }
            }
          }
          if Distinct(s) {
            forall i, j | 0 <= i < j < |t|
              ensures t[i] != t[j]
            {
              assert t[i] == s[i + 1] && t[j] == s[j + 1];
            }
          }
        }
      }
    }
  }
}

=== FILE: records.dfy ===
/** One JSON object of a submission or of a dataset file, as the validator and the statistics see it. */
module Records {
  import opened Wrappers

  /**
   * A record: the value of its `id` key and of its `gloss` key when present,
   * and the names of its other keys. Values other than `id` and `gloss` are
   * never inspected, so only their names are kept. `fields` never holds
   * `"id"` or `"gloss"`: those keys live in their own fields. Both names are
   * among `NonVectorFields`, so every key-set difference ignores them anyway.
   */
  datatype Record = Record(id: Option<string>, gloss: Option<string>, fields: set<string>)

  /** The key names that never name an embedding architecture. */
  const NonVectorFields: set<string> :=
    {"id", "gloss", "word", "pos", "concrete", "example", "f_rnk", "counts", "polysemous"}
}

=== FILE: scenarios.dfy ===
/**
 * Worked submissions for the checker, a family of submissions it always
 * accepts, and how the checker's vector names relate to the statistics'
 * embedding names.
 */
module Scenarios {
  import opened Wrappers
  import opened Order
  import opened Text
  import opened Records
  import opened CheckOutput

  /** The items carry the ids `<lang>.<track>.1` to `<lang>.<track>.n`, in order. */
  predicate NumberedItems(items: seq<Record>, lang: string, track: string) {
    forall i | 0 <= i < |items| :: items[i].id == Some(MakeId(lang, track, i + 1))
  }

  /** Numbered ids decode uniformly and their serials are complete. */
  lemma NumberedItemsUniform(items: seq<Record>, lang: string, track: string)
    requires '.' !in lang && '.' !in track
    requires |items| > 0 && NumberedItems(items, lang, track)
    ensures AllHaveIds(items) && UniformIds(Ids(items), lang, track) && SerialsComplete(Ids(items))
  {
    var ids := Ids(items);
    forall i | 0 <= i < |ids|
      ensures HasTrackSegment(ids[i]) && Language(ids[i]) == lang && Track(ids[i]) == track
      ensures Serial(ids[i]) == Some(i + 1)
    {
      MakeIdDecodes(lang, track, i + 1);
    }
  }

  /** With numbered ids in a known track and language, the id checks pass. */
  lemma NumberedItemsPassHeader(items: seq<Record>, lang: string, track: string)
    requires track in KnownTracks && lang in KnownLanguages
    requires |items| > 0 && NumberedItems(items, lang, track)
    ensures Header(items) == Success(Decoded(track, lang))
  {
    NumberedItemsUniform(items, lang, track);
    DecodeAccepts(Ids(items), Decoded(track, lang));
  }

  /**
   * Every defmod submission whose ids are `<lang>.defmod.1` to `<lang>.defmod.n`
   * in a known language and whose items all carry a gloss passes, with no
   * vector names reported, whatever other keys the items have.
   */
  lemma NumberedDefmodAccepted(filename: string, lang: string, items: seq<Record>)
    requires lang in KnownLanguages && |items| > 0 && NumberedItems(items, lang, "defmod")
    requires forall i | 0 <= i < |items| :: items[i].gloss.Some?
    ensures Check(filename, items) == Success(CheckSummary(filename, "defmod", lang, None))
  {
    NumberedItemsPassHeader(items, lang, "defmod");
    DefmodRule(filename, items, lang);
  }

  /**
   * Every revdict submission with ids `<lang>.revdict.1` to `<lang>.revdict.n`
   * in a known language, whose first item names a non-empty set of known
   * vectors that every item carries, passes and reports those vectors sorted.
   */
  lemma NumberedRevdictAccepted(filename: string, lang: string, items: seq<Record>)
    requires lang in KnownLanguages && |items| > 0 && NumberedItems(items, lang, "revdict")
    requires var archs := items[0].fields - NonVectorFields;
             archs != {} && archs <= KnownArchitectures && forall i | 0 <= i < |items| :: archs <= items[i].fields
    ensures Check(filename, items) ==
              Success(CheckSummary(filename, "revdict", lang, Some(SortStrings(items[0].fields - NonVectorFields))))
  {
    NumberedItemsPassHeader(items, lang, "revdict");
    assert |VectorArchitectures(items) - KnownArchitectures| == 0;
  }

  // ---------------------------------------------------------------------------
  // Worked submissions

  lemma JoinThree(a: string, b: string, c: string)
    ensures Join([a, b, c], '.') == a + "." + b + "." + c
  {
    assert [a, b, c][1..] == [b, c] && [b, c][1..] == [c];
    assert Join([c], '.') == c;
    assert Join([b, c], '.') == b + "." + c;
  }

  /** The ids with serials 1 and 2, spelled out. */
  lemma SmallIds(lang: string, track: string)
    ensures MakeId(lang, track, 1) == lang + "." + track + ".1"
    ensures MakeId(lang, track, 2) == lang + "." + track + ".2"
  {
    assert ShowDecimal(1) == [DigitChar(1)] == "1";
    assert ShowDecimal(2) == [DigitChar(2)] == "2";
    JoinThree(lang, track, "1");
    JoinThree(lang, track, "2");
  }

  /** Two items with ids `<lang>.<track>.1` and `<lang>.<track>.2`. */
  lemma TwoNumbered(a: Record, b: Record, lang: string, track: string)
    requires a.id == Some(lang + "." + track + ".1") && b.id == Some(lang + "." + track + ".2")
    ensures NumberedItems([a, b], lang, track)
  {
    SmallIds(lang, track);
  }

  /** Two strings in increasing order are the sorted form of the set of both. */
  lemma SortTwo(x: string, y: string)
    requires StrLess(x, y)
    ensures SortStrings({x, y}) == [x, y]
  {
    StrLessIrreflexive(x);
    assert StrictlyIncreasing([x, y], StrLess);
    assert forall z :: z in [x, y] <==> z in {x, y};
    SortStringsCharacterized({x, y}, [x, y]);
  }

  /** Two revdict items carrying `sgns` and `char`: accepted, reporting `["char", "sgns"]`. */
  lemma RevdictValid(filename: string)
    ensures Check(filename, [
              Record(Some("en.revdict.1"), Some("a cat"), {"word", "sgns", "char"}),
              Record(Some("en.revdict.2"), Some("a dog"), {"word", "sgns", "char"})])
            == Success(CheckSummary(filename, "revdict", "en", Some(["char", "sgns"])))
  {
    var a := Record(Some("en.revdict.1"), Some("a cat"), {"word", "sgns", "char"});
    var b := Record(Some("en.revdict.2"), Some("a dog"), {"word", "sgns", "char"});
    assert "en.revdict.1" == "en" + "." + "revdict" + ".1" && "en.revdict.2" == "en" + "." + "revdict" + ".2";
    TwoNumbered(a, b, "en", "revdict");
    var archs := a.fields - NonVectorFields;
    assert archs == {"char", "sgns"};
    NumberedRevdictAccepted(filename, "en", [a, b]);
    SortTwo("char", "sgns");
  }

  /** The second item lacks `char`: the missing-vector error. */
  lemma RevdictInconsistent(filename: string)
    ensures Check(filename, [
              Record(Some("en.revdict.1"), Some("a cat"), {"word", "sgns", "char"}),
              Record(Some("en.revdict.2"), Some("a dog"), {"word", "sgns"})])
            == Failure(MissingVectors)
  {
    var a := Record(Some("en.revdict.1"), Some("a cat"), {"word", "sgns", "char"});
    var b := Record(Some("en.revdict.2"), Some("a dog"), {"word", "sgns"});
    assert "en.revdict.1" == "en" + "." + "revdict" + ".1" && "en.revdict.2" == "en" + "." + "revdict" + ".2";
    TwoNumbered(a, b, "en", "revdict");
    var archs := a.fields - NonVectorFields;
    assert archs == {"char", "sgns"};
    assert !(archs <= [a, b][1].fields);
    NumberedItemsPassHeader([a, b], "en", "revdict");
    RevdictRules(filename, [a, b], "en");
  }

  /** The second defmod item has no gloss: the missing-gloss error. */
  lemma DefmodMissingGloss(filename: string)
    ensures Check(filename, [
              Record(Some("fr.defmod.1"), Some("un chat"), {}),
              Record(Some("fr.defmod.2"), None, {})])
            == Failure(MissingGloss)
  {
    var a := Record(Some("fr.defmod.1"), Some("un chat"), {});
    var b := Record(Some("fr.defmod.2"), None, {});
    assert "fr.defmod.1" == "fr" + "." + "defmod" + ".1" && "fr.defmod.2" == "fr" + "." + "defmod" + ".2";
    TwoNumbered(a, b, "fr", "defmod");
    assert [a, b][1].gloss.None?;
    NumberedItemsPassHeader([a, b], "fr", "defmod");
    DefmodRule(filename, [a, b], "fr");
  }

  /** One item with id `<lang>.<track>.1`. */
  lemma OneNumbered(a: Record, lang: string, track: string)
    requires a.id == Some(lang + "." + track + ".1")
    ensures NumberedItems([a], lang, track)
  {
    SmallIds(lang, track);
  }

  /** A track outside `revdict` and `defmod`, whatever the language: the track error. */
  lemma UnknownTrackReported(filename: string, lang: string)
    requires '.' !in lang
    ensures Check(filename, [Record(Some(lang + ".summarize.1"), Some("x"), {})])
            == Failure(UnknownTrack("summarize"))
  {
    var a := Record(Some(lang + ".summarize.1"), Some("x"), {});
    assert lang + ".summarize.1" == lang + "." + "summarize" + ".1";
    OneNumbered(a, lang, "summarize");
    NumberedItemsUniform([a], lang, "summarize");
    UnknownTrackFirst(filename, [a], lang, "summarize");
  }

  /** A known track in a language outside the five: the language error. */
  lemma UnknownLanguageReported(filename: string)
    ensures Check(filename, [Record(Some("de.defmod.1"), Some("eine Katze"), {})])
            == Failure(UnknownLanguage("de"))
  {
    var a := Record(Some("de.defmod.1"), Some("eine Katze"), {});
    assert "de.defmod.1" == "de" + "." + "defmod" + ".1";
    OneNumbered(a, "de", "defmod");
    NumberedItemsUniform([a], "de", "defmod");
    UnknownLanguageRejected(filename, [a], "de", "defmod");
  }

  // ---------------------------------------------------------------------------
  // The checker and the statistics on the same file

  /**
   * On a submission the checker accepts as revdict, the statistics' embedding
   * names (collected from every item) include the vector names the checker
   * reports (taken from the first item), and are exactly those names when no
   * later item carries a vector name the first item lacks.
   */
  lemma EmbeddingTypesCoverVectorArchitectures(filename: string, items: seq<Record>, s: CheckSummary, types: set<string>)
    requires Check(filename, items) == Success(s) && s.track == "revdict"
    requires forall f :: f in types <==> f !in NonVectorFields && exists i | 0 <= i < |items| :: f in items[i].fields
    ensures forall f | f in s.vecArchs.value :: f in types
    ensures (forall f :: f in types <==> f in s.vecArchs.value) <==>
              forall i | 0 <= i < |items| :: items[i].fields - NonVectorFields <= items[0].fields
  {
    assert Header(items).Success?;
    var d := Header(items).value;
    assert TrackRules(filename, items, d) == Success(s);
    RevdictRulesAccept(filename, items, d, s);
    FirstKeysAmongAllKeys(items, types);
  }

  /**
   * The vector names found in any item include those of the first item, and
   * equal them exactly when no item has a vector name the first lacks.
   */
  lemma FirstKeysAmongAllKeys(items: seq<Record>, types: set<string>)
    requires |items| > 0
    requires forall f :: f in types <==> f !in NonVectorFields && exists i | 0 <= i < |items| :: f in items[i].fields
    ensures items[0].fields - NonVectorFields <= types
    ensures types == items[0].fields - NonVectorFields <==>
              forall i | 0 <= i < |items| :: items[i].fields - NonVectorFields <= items[0].fields
  {
    forall f
      ensures f in types <==> f in AllVectorKeys(items)
    {
      if f in types {
        var i :| 0 <= i < |items| && f in items[i].fields;
      }
    }
    assert types == AllVectorKeys(items);
    FirstVectorKeys(items);
  }
}

=== FILE: text.dfy ===
/**
 * The string operations the validator and the statistics rely on: Python's
 * `s.split(sep)`, `s.split()` (whitespace) and `int(s)` restricted to plain
 * decimal digits, each with the inverse that pins its meaning down.
 */
module Text {
  import opened Wrappers

  /** Python `sep.join(parts)` for a one-character separator and at least one part. */
  function Join(parts: seq<string>, sep: char): string
    requires |parts| >= 1
    decreases |parts|
  {
    if |parts| == 1 then parts[0] else parts[0] + [sep] + Join(parts[1..], sep)
  }

  /**
   * Python `s.split(sep)`: at least one segment, no segment holds `sep`, and
   * joining the segments back with `sep` gives `s`.
   */
  function Split(s: string, sep: char): (parts: seq<string>)
    ensures |parts| >= 1
    ensures forall i | 0 <= i < |parts| :: sep !in parts[i]
    ensures Join(parts, sep) == s
    decreases |s|
  {
    if |s| == 0 then [""]
    else
      var rest := Split(s[1..], sep);
      if s[0] == sep then
        assert ([""] + rest)[1..] == rest;
        [""] + rest
      else
        var parts := [[s[0]] + rest[0]] + rest[1..];
        assert parts[1..] == rest[1..];
        assert s == [s[0]] + s[1..];
        parts
  }

  lemma {:induction false} SplitSingle(p: string, sep: char)
    requires sep !in p
    ensures Split(p, sep) == [p]
    decreases |p|
  {
    if |p| > 0 {
      SplitSingle(p[1..], sep);
      assert [p[0]] + p[1..] == p;
    }
  }

  lemma {:induction false} SplitAfterSegment(p: string, sep: char, t: string)
    requires sep !in p
    ensures Split(p + [sep] + t, sep) == [p] + Split(t, sep)
    decreases |p|
  {
    var s := p + [sep] + t;
    if |p| == 0 {
      assert s[0] == sep && s[1..] == t;
    } else {
      assert s[0] == p[0] && s[1..] == p[1..] + [sep] + t;
      SplitAfterSegment(p[1..], sep, t);
      assert [p[0]] + p[1..] == p;
    }
  }

  /** Splitting a joined sequence of separator-free segments gives the segments back. */
  lemma {:induction false} SplitJoin(parts: seq<string>, sep: char)
    requires |parts| >= 1
    requires forall i | 0 <= i < |parts| :: sep !in parts[i]
    ensures Split(Join(parts, sep), sep) == parts
    decreases |parts|
  {
    if |parts| == 1 {
      SplitSingle(parts[0], sep);
    } else {
      SplitJoin(parts[1..], sep);
      SplitAfterSegment(parts[0], sep, Join(parts[1..], sep));
      assert [parts[0]] + parts[1..] == parts;
    }
  }

  predicate IsDigit(c: char) {
    '0' <= c <= '9'
  }

  function DigitValue(c: char): int
    requires IsDigit(c)
  {
    c as int - '0' as int
  }

  function DigitChar(d: int): char
    requires 0 <= d < 10
  {
    ('0' as int + d) as char
  }

  /** The value of a string of decimal digits, most significant first. */
  function DigitsValue(s: string): nat
    requires forall i | 0 <= i < |s| :: IsDigit(s[i])
    decreases |s|
  {
    if |s| == 0 then 0 else DigitsValue(s[..|s| - 1]) * 10 + DigitValue(s[|s| - 1])
  }

  /**
   * Python `int(s)` on the strings this model admits: a non-empty run of ASCII
   * decimal digits (leading zeros allowed); anything else is a parse failure.
   */
  function ParseDecimal(s: string): (r: Option<int>)
    ensures r.Some? <==> |s| > 0 && forall i | 0 <= i < |s| :: IsDigit(s[i])
    ensures r.Some? ==> r.value >= 0 && exists k: nat :: s == Zeros(k) + ShowDecimal(r.value)
  {
    if |s| > 0 && forall i | 0 <= i < |s| :: IsDigit(s[i]) then
      DigitsShow(s);
      Some(DigitsValue(s))
    else None
  }

  /** `k` zero digits. */
  function Zeros(k: nat): (z: string)
    ensures |z| == k && forall i | 0 <= i < k :: z[i] == '0'
  {
    seq(k, _ => '0')
  }

  /** A run of digits is the decimal rendering of its value, after some leading zeros. */
  lemma {:induction false} DigitsShow(s: string)
    requires |s| > 0 && forall i | 0 <= i < |s| :: IsDigit(s[i])
    ensures exists k: nat :: s == Zeros(k) + ShowDecimal(DigitsValue(s))
    decreases |s|
  {
    var p, c := s[..|s| - 1], s[|s| - 1];
    var d := DigitValue(c);
    assert DigitChar(d) == c;
    assert s == p + [c];
    if |p| == 0 {
      assert DigitsValue(p) == 0;
      assert s == Zeros(0) + ShowDecimal(DigitsValue(s));
    } else {
      DigitsShow(p);
      var k: nat :| p == Zeros(k) + ShowDecimal(DigitsValue(p));
      var v := DigitsValue(s);
      assert v == DigitsValue(p) * 10 + d;
      if DigitsValue(p) == 0 {
        assert ShowDecimal(0) == "0";
        assert p == Zeros(k + 1);
        assert v == d && ShowDecimal(v) == [c];
        assert s == Zeros(k + 1) + ShowDecimal(v);
      } else {
        assert v / 10 == DigitsValue(p) && v % 10 == d;
        assert ShowDecimal(v) == ShowDecimal(DigitsValue(p)) + [c];
        assert s == Zeros(k) + ShowDecimal(v);
      }
    }
  }

  /** Leading zeros do not change the value: `int("0" + s) == int(s)` for non-empty `s`. */
  lemma {:induction false} ParseLeadingZero(s: string)
    requires |s| > 0
    ensures ParseDecimal("0" + s) == ParseDecimal(s)
  {
    if forall i | 0 <= i < |s| :: IsDigit(s[i]) {
      DigitsLeadingZero(s);
    } else {
      var i :| 0 <= i < |s| && !IsDigit(s[i]);
      assert ("0" + s)[i + 1] == s[i];
    }
  }

  lemma {:induction false} DigitsLeadingZero(s: string)
    requires forall i | 0 <= i < |s| :: IsDigit(s[i])
    ensures DigitsValue("0" + s) == DigitsValue(s)
    decreases |s|
  {
    var z := "0" + s;
    if |s| == 0 {
      assert z[..|z| - 1] == [];
    } else {
      var p := s[..|s| - 1];
      assert z[..|z| - 1] == "0" + p;
      assert z[|z| - 1] == s[|s| - 1];
      DigitsLeadingZero(p);
    }
  }

  /** Python `str(n)` for a non-negative integer. */
  function ShowDecimal(n: nat): (s: string)
    ensures |s| >= 1
    ensures forall i | 0 <= i < |s| :: IsDigit(s[i])
    decreases n
  {
    if n < 10 then [DigitChar(n)] else ShowDecimal(n / 10) + [DigitChar(n % 10)]
  }

  /** Parsing the decimal rendering of a number gives the number back. */
  lemma {:induction false} ParseShow(n: nat)
    ensures ParseDecimal(ShowDecimal(n)) == Some(n)
    decreases n
  {
    var s := ShowDecimal(n);
    if n < 10 {
      assert s[..|s| - 1] == [];
      assert DigitsValue(s) == n;
    } else {
      ParseShow(n / 10);
      assert s[..|s| - 1] == ShowDecimal(n / 10);
      assert DigitsValue(ShowDecimal(n / 10)) == n / 10;
      assert DigitsValue(s) == n / 10 * 10 + n % 10;
    }
  }

  /** The whitespace Python's `str.split()` breaks on, restricted to ASCII. */
  predicate IsSpace(c: char) {
    c as int in {9, 10, 11, 12, 13, 28, 29, 30, 31, 32}
  }

  /** A token of `str.split()`: non-empty, without whitespace. */
  predicate IsWord(w: string) {
    |w| > 0 && forall j | 0 <= j < |w| :: !IsSpace(w[j])
  }

  /** The longest whitespace-free prefix of `s`. */
  function LeadingWord(s: string): (w: string)
    ensures |w| <= |s| && w == s[..|w|]
    ensures forall j | 0 <= j < |w| :: !IsSpace(w[j])
    ensures |w| < |s| ==> IsSpace(s[|w|])
    decreases |s|
  {
    if |s| == 0 || IsSpace(s[0]) then "" else [s[0]] + LeadingWord(s[1..])
  }

  /** The characters of `s` that are not whitespace, in order. */
  function NonSpace(s: string): string
    decreases |s|
  {
    if |s| == 0 then "" else (if IsSpace(s[0]) then "" else [s[0]]) + NonSpace(s[1..])
  }

  lemma {:induction false} NonSpaceAppend(a: string, b: string)
    ensures NonSpace(a + b) == NonSpace(a) + NonSpace(b)
    decreases |a|
  {
    if |a| > 0 {
      assert (a + b)[1..] == a[1..] + b;
      NonSpaceAppend(a[1..], b);
    } else {
      assert a + b == b;
    }
  }

  lemma {:induction false} NonSpaceOfWord(w: string)
    requires forall j | 0 <= j < |w| :: !IsSpace(w[j])
    ensures NonSpace(w) == w
    decreases |w|
  {
    if |w| > 0 {
      NonSpaceOfWord(w[1..]);
      assert [w[0]] + w[1..] == w;
    }
  }

  /** The words of a sequence glued together with nothing between them. */
  function Concat(ws: seq<string>): string
    decreases |ws|
  {
    if |ws| == 0 then "" else ws[0] + Concat(ws[1..])
  }

  /**
   * Python `s.split()`: whitespace-free, non-empty tokens which, glued together,
   * are exactly the non-whitespace characters of `s` in order.
   */
  function Words(s: string): (ws: seq<string>)
    ensures forall i | 0 <= i < |ws| :: IsWord(ws[i])
    ensures Concat(ws) == NonSpace(s)
    decreases |s|
  {
    if |s| == 0 then []
    else if IsSpace(s[0]) then Words(s[1..])
    else
      var w := LeadingWord(s);
      var rest := Words(s[|w|..]);
      assert s == w + s[|w|..];
      NonSpaceAppend(w, s[|w|..]);
      NonSpaceOfWord(w);
      assert ([w] + rest)[1..] == rest;
      [w] + rest
  }

  /** Python `" ".join(ws)`. */
  function Unwords(ws: seq<string>): string {
    if |ws| == 0 then "" else Join(ws, ' ')
  }

  lemma {:induction false} LeadingWordOf(w: string, t: string)
    requires forall j | 0 <= j < |w| :: !IsSpace(w[j])
    requires |t| == 0 || IsSpace(t[0])
    ensures LeadingWord(w + t) == w
    decreases |w|
  {
    if |w| > 0 {
      assert (w + t)[1..] == w[1..] + t;
      LeadingWordOf(w[1..], t);
      assert [w[0]] + w[1..] == w;
    }
  }

  /** A word followed by nothing or by whitespace is the first token. */
  lemma WordsAfterWord(w: string, t: string)
    requires IsWord(w)
    requires |t| == 0 || IsSpace(t[0])
    ensures Words(w + t) == [w] + Words(t)
  {
    var s := w + t;
    LeadingWordOf(w, t);
    assert s[0] == w[0];
    assert s[|w|..] == t;
  }

  /** Splitting the space-joined words gives the words back. */
  lemma {:induction false} WordsUnwords(ws: seq<string>)
    requires forall i | 0 <= i < |ws| :: IsWord(ws[i])
    ensures Words(Unwords(ws)) == ws
    decreases |ws|
  {
    if |ws| == 1 {
      WordsAfterWord(ws[0], "");
      assert ws[0] + "" == ws[0];
    } else if |ws| > 1 {
      var t := Join(ws[1..], ' ');
      assert Unwords(ws) == ws[0] + ([' '] + t);
      WordsAfterWord(ws[0], [' '] + t);
      assert ([' '] + t)[1..] == t;
      assert Words([' '] + t) == Words(t);
      WordsUnwords(ws[1..]);
      assert [ws[0]] + ws[1..] == ws;
    }
  }

  /** A single whitespace-free token splits to itself. */
  lemma WordsOfWord(w: string)
    requires IsWord(w)
    ensures Words(w) == [w]
  {
    WordsAfterWord(w, "");
    assert w + "" == w;
  }

  /**
   * A whitespace character separates: the tokens of `a c b` are those of `a`
   * followed by those of `b`. With `WordsOfWord` and `WordsOfSpaces` this fixes
   * `Words` on every string, token boundaries included.
   */
  lemma {:induction false} WordsAtSpace(a: string, c: char, b: string)
    requires IsSpace(c)
    ensures Words(a + [c] + b) == Words(a) + Words(b)
    decreases |a|
  {
    var s := a + [c] + b;
    if |a| == 0 {
      assert s[0] == c && s[1..] == b;
    } else if IsSpace(a[0]) {
      assert s[0] == a[0] && s[1..] == a[1..] + [c] + b;
      WordsAtSpace(a[1..], c, b);
    } else {
      var w := LeadingWord(a);
      var t := a[|w|..];
      assert a == w + t;
      assert s == w + (t + [c] + b);
      LeadingWordOf(w, t + [c] + b);
      assert s[|w|..] == t + [c] + b;
      WordsAtSpace(t, c, b);
    }
  }

  /** `s.split()` is empty exactly when `s` is all whitespace. */
  lemma {:induction false} WordsEmptyIffBlank(s: string)
    ensures Words(s) == [] <==> forall j | 0 <= j < |s| :: IsSpace(s[j])
    decreases |s|
  {
    if |s| > 0 {
      if IsSpace(s[0]) {
        WordsEmptyIffBlank(s[1..]);
        assert forall j | 1 <= j < |s| :: s[j] == s[1..][j - 1];
      } else {
        assert |Words(s)| > 0;
      }
    }
  }

  lemma {:induction false} WordsOfSpaces(s: string)
    requires forall j | 0 <= j < |s| :: IsSpace(s[j])
    ensures Words(s) == []
    decreases |s|
  {
    if |s| > 0 {
      WordsOfSpaces(s[1..]);
    }
  }
}

=== FILE: visualize_stats.dfy ===
/**
 * `calculate_stats` of `visualize_stats.py`: the entry count, the words used
 * in glosses, the number of words of each gloss and the embedding names found
 * among the keys of a dataset.
 */
module VisualizeStats {
  import opened Order
  import opened Text
  import opened Records

  /** The statistics `calculate_stats` returns, without the floating-point average. */
  datatype Stats = Stats(totalEntries: nat, uniqueWords: set<string>, glossLengths: seq<nat>, embeddingTypes: set<string>)

  /** `entry.get("gloss", "")`: a missing gloss reads as the empty string, which has no words. */
  function GlossText(r: Record): (t: string)
    ensures r.gloss.Some? ==> t == r.gloss.value
    ensures r.gloss.None? ==> t == "" && Words(t) == []
  {
    match r.gloss
    case Some(g) => g
    case None => ""
  }

  /** `gloss.split()`: no words exactly when the gloss is missing or all whitespace. */
  function GlossWords(r: Record): (ws: seq<string>)
    ensures |ws| == 0 <==> forall j | 0 <= j < |GlossText(r)| :: IsSpace(GlossText(r)[j])
    ensures r.gloss.None? ==> |ws| == 0
  {
    WordsEmptyIffBlank(GlossText(r));
    Words(GlossText(r))
  }

  /** Python `sum(ns)`. */
  function Sum(ns: seq<nat>): nat
    decreases |ns|
  {
    if |ns| == 0 then 0 else Sum(ns[..|ns| - 1]) + ns[|ns| - 1]
  }

  lemma SumAppend(ns: seq<nat>, n: nat)
    ensures Sum(ns + [n]) == Sum(ns) + n
  {
    assert (ns + [n])[..|ns|] == ns;
  }

  /** The distinct words of a list. */
  function WordSet(ws: seq<string>): (r: set<string>)
    ensures forall w :: w in r <==> w in ws
  {
    set w | w in ws
  }

  /** Adding the words of a list to a set adds at most as many elements as the list is long. */
  lemma UnionBound(a: set<string>, ws: seq<string>)
    ensures |a + WordSet(ws)| <= |a| + |ws|
  {
    var b := WordSet(ws);
    DistinctCardinality(ws);
    assert |a + b| == |a| + |b - a| by {
      assert a + b == a + (b - a);
      assert a !! (b - a);
    }
    assert |b - a| <= |b| by {
      assert b == (b - a) + (b * a);
      assert (b - a) !! (b * a);
    }
  }

  /** `ws` holds exactly the words of the glosses of the first `k` entries. */
  ghost predicate WordsOfFirst(data: seq<Record>, k: nat, ws: set<string>)
    requires k <= |data|
  {
    forall w :: w in ws <==> exists i | 0 <= i < k :: w in GlossWords(data[i])
  }

  /** `fs` holds exactly the keys of the first `k` entries. */
  ghost predicate KeysOfFirst(data: seq<Record>, k: nat, fs: set<string>)
    requires k <= |data|
  {
    forall f :: f in fs <==> exists i | 0 <= i < k :: f in data[i].fields
  }

  lemma WordsOfNext(data: seq<Record>, k: nat, ws: set<string>)
    requires k < |data| && WordsOfFirst(data, k, ws)
    ensures WordsOfFirst(data, k + 1, ws + WordSet(GlossWords(data[k])))
  {
    var next := ws + WordSet(GlossWords(data[k]));
    forall w
      ensures w in next <==> exists i | 0 <= i < k + 1 :: w in GlossWords(data[i])
    {
      if w in GlossWords(data[k]) {
        assert w in next;
      }
    }
  }

  lemma KeysOfNext(data: seq<Record>, k: nat, fs: set<string>)
    requires k < |data| && KeysOfFirst(data, k, fs)
    ensures KeysOfFirst(data, k + 1, fs + data[k].fields)
  {
    var next := fs + data[k].fields;
    forall f
      ensures f in next <==> exists i | 0 <= i < k + 1 :: f in data[i].fields
    {
    }
  }

  lemma LengthsOfNext(data: seq<Record>, k: nat, lengths: seq<nat>)
    requires k < |data| && |lengths| == k
    requires forall i | 0 <= i < k :: lengths[i] == |GlossWords(data[i])|
    ensures forall i | 0 <= i < k + 1 :: (lengths + [|GlossWords(data[k])|])[i] == |GlossWords(data[i])|
  {
    var next := lengths + [|GlossWords(data[k])|];
    forall i | 0 <= i < k + 1
      ensures next[i] == |GlossWords(data[i])|
    {
      if i < k {
        assert next[i] == lengths[i];
      }
    }
  }

  /** The running totals after the first `k` entries. */
  ghost predicate StatsOfFirst(data: seq<Record>, k: nat, uniqueWords: set<string>, glossLengths: seq<nat>, embeddingTypes: set<string>)
    requires k <= |data|
  {
    && |glossLengths| == k
    && (forall i | 0 <= i < k :: glossLengths[i] == |GlossWords(data[i])|)
    && WordsOfFirst(data, k, uniqueWords)
    && KeysOfFirst(data, k, embeddingTypes)
    && |uniqueWords| <= Sum(glossLengths)
  }

  /** One iteration of the loop over the entries: fold entry `k` into the totals. */
  method AddEntry(data: seq<Record>, k: nat, uniqueWords: set<string>, glossLengths: seq<nat>, embeddingTypes: set<string>)
    returns (uniqueWords': set<string>, glossLengths': seq<nat>, embeddingTypes': set<string>)
    requires k < |data| && StatsOfFirst(data, k, uniqueWords, glossLengths, embeddingTypes)
    ensures StatsOfFirst(data, k + 1, uniqueWords', glossLengths', embeddingTypes')
  {
    var words := GlossWords(data[k]);
    UnionBound(uniqueWords, words);
    SumAppend(glossLengths, |words|);
    WordsOfNext(data, k, uniqueWords);
    KeysOfNext(data, k, embeddingTypes);
    LengthsOfNext(data, k, glossLengths);
    uniqueWords' := uniqueWords + WordSet(words);
    embeddingTypes' := embeddingTypes + data[k].fields;
    glossLengths' := glossLengths + [|words|];
  }

  /**
   * `calculate_stats(data)`: one gloss length per entry, in order; a word is
   * unique-listed exactly when some gloss contains it; an embedding name is
   * a key of some entry outside the nine non-vector names. There are never
   * more distinct words than words.
   */
  method CalculateStats(data: seq<Record>) returns (stats: Stats)
    ensures stats.totalEntries == |data|
    ensures |stats.glossLengths| == |data|
    ensures forall i | 0 <= i < |data| :: stats.glossLengths[i] == |GlossWords(data[i])|
    ensures forall w :: w in stats.uniqueWords <==> exists i | 0 <= i < |data| :: w in GlossWords(data[i])
    ensures forall f :: f in stats.embeddingTypes <==>
              f !in NonVectorFields && exists i | 0 <= i < |data| :: f in data[i].fields
    ensures |stats.uniqueWords| <= Sum(stats.glossLengths)
    ensures forall i | 0 <= i < |data| && data[i].gloss.None? :: stats.glossLengths[i] == 0
    ensures stats.embeddingTypes !! NonVectorFields
    ensures |data| == 0 ==> stats == Stats(0, {}, [], {})
  {
    var uniqueWords: set<string> := {};
    var glossLengths: seq<nat> := [];
    var embeddingTypes: set<string> := {};
    for k := 0 to |data|
      invariant StatsOfFirst(data, k, uniqueWords, glossLengths, embeddingTypes)
    {
      uniqueWords, glossLengths, embeddingTypes := AddEntry(data, k, uniqueWords, glossLengths, embeddingTypes);
    }
    embeddingTypes := embeddingTypes - NonVectorFields;
    assert forall i | 0 <= i < |data| && data[i].gloss.None? :: GlossWords(data[i]) == [];
    if |data| == 0 {
      assert uniqueWords == {} && embeddingTypes == {} && glossLengths == [];
    }
    stats := Stats(|data|, uniqueWords, glossLengths, embeddingTypes);
  }
}

=== FILE: wrappers.dfy ===
/** Optional values and results carrying an error, used for the validator's outcome. */
module Wrappers {

  /** A value that may be absent, as a missing key of a JSON object. */
  datatype Option<+T> = None | Some(value: T)

  /** Either a value or the error that stopped the computation. */
  datatype Result<+R, +E> = Success(value: R) | Failure(error: E)
}
